=== FILE: README.md ===
# E-learning backend: access decisions, as a Dafny model

The e-learning backend is a Next.js application whose every operation is one
or two calls to a hosted auth/database service. What it decides for itself is
who may do what, in which order the checks run, what each failure answers,
and what each insert writes. This project models that decision logic as pure
functions over the service's replies, and proves properties of it:

- the route guard (`middleware.ts`): redirect to `/login`, redirect to `/`, or
  continue, from the path, the session and the caller's profile;
- the course and category handlers: listing (filters, order) and admin-only
  creation (validate → session → admin role → insert);
- the auth handlers: signup (identity, then a student profile), signin
  (credentials, then the profile) and `me` (session, then the profile).

## How the model is built

- `base.dfy`, `json.dfy`, `schema.dfy`: `Option`/`Result`; JSON request values
  with JavaScript truthiness and destructuring; the rows of `users`,
  `categories` and `courses` after `src/lib/supabase.ts`.
- `store.dfy`: the service as oracle inputs. Each awaited call is a
  `Call<T>`: it returns a reply, or it throws and the handler's `catch`
  answers 500 `Erreur serveur`. A handler answers an `Outcome`: the response
  (a success body, or a status with `{ error }`) and the ordered list of calls
  it made. "Validation happens before any lookup" is "the list is empty";
  "nothing is inserted unless every check passed" is "no write in the list".
  The admin check repeated by both creation handlers is `AdminGate`.
- `text.dfy`, `sorting.dfy`: `startsWith`, the case-insensitive substring test
  behind `ilike '%term%'` with a proof that it finds exactly the occurrences,
  the code-point order of names with proofs that it is a total order, and an
  insertion sort proved to give a sorted permutation.
- `middleware.dfy`, `courses.dfy`, `categories.dfy`, `signup.dfy`,
  `signin.dfy`, `me.dfy`: one module per source file; `accounts.dfy` relates
  signup and signin.

The guard's area test is a raw prefix test (so `/administrator` is admin area
and `/courses` is not a student area); the `config.matcher` then keeps
`/administrator` away from the guard. Store messages are passed through only
by the course and category handlers; signup, signin and `me` answer fixed
messages for store failures, and signin masks every provider error.

## Model

| member | source | states |
|---|---|---|
| Middleware.Guard | middleware.ts:5-41 | Login redirect exactly when there is no session and the path is in the admin or student area; root redirect exactly for an admin-area path with a session whose profile is missing or not admin; the profile is looked up only on that branch |
| Middleware.Intercept | middleware.ts:5-50 | Login redirect exactly for a matched path in the admin or student area without a session; root redirect exactly for a matched admin-area path with a session whose profile is missing or not admin; no call at all exactly for unmatched paths |
| Middleware.RoleIgnoredOutsideAdmin | middleware.ts:31-40 | Outside the admin area the decision does not depend on any profile, and only the session is read |
| Middleware.MatchedPathsAreGuarded | middleware.ts:43-50 | Every matched path is in the admin or student area, except `/courses` itself |
| Middleware.AdministratorIsNotIntercepted | middleware.ts:14-17 | The raw prefix test redirects `/administrator` without a session to login, but the matcher never sends it to the guard |
| Middleware.CourseListIsOpen | middleware.ts:32-37 | `/courses` without a session continues; `/courses/42` without a session redirects to login |
| Store.AdminGate | src/app/api/courses/route.ts:81-102 | Admits exactly a caller with a session whose profile says admin, with that caller's id; 401 exactly without a session; 403 for a missing or non-admin profile; the profile is looked up only after a session is found |
| Text.ContainsIffOccurs | src/app/api/courses/route.ts:34-36 | The substring scan succeeds exactly when the term occurs at some position of the text |
| Text.SearchIgnoresTermCase | src/app/api/courses/route.ts:34-36 | A search term and its lower-cased form find exactly the same texts |
| Text.LexLeTotal | src/app/api/categories/route.ts:12-15 | Any two names are comparable |
| Text.LexLeAntisymmetric | src/app/api/categories/route.ts:12-15 | Names that sort before each other are equal |
| Text.LexLeTransitive | src/app/api/categories/route.ts:12-15 | The name order chains |
| Sorting.Insert | src/app/api/courses/route.ts:38 | Inserting into a sorted sequence keeps it sorted and adds exactly the one element |
| Sorting.SortBy | src/app/api/courses/route.ts:38 | The result is sorted and is a permutation of the input |
| Courses.Filter | src/app/api/courses/route.ts:26-36 | Each qualifying row is kept as often as it occurs, and no other row is kept |
| Courses.NewestFirstIsTotalPreorder | src/app/api/courses/route.ts:38 | Ordering by `created_at` descending compares every pair and chains |
| Courses.RunQuery | src/app/api/courses/route.ts:17-38 | The store's answer is sorted newest first and holds exactly the qualifying rows with their multiplicities |
| Courses.ListCourses | src/app/api/courses/route.ts:7-56 | A course is listed iff it is in the table, has the category when a non-empty `category_id` is given, is published when `published_only` is exactly `"true"`, and has the non-empty search term in its title or description ignoring case; newest first; a store error answers 500 with its message |
| Courses.PublishedFilterNeedsExactTrue | src/app/api/courses/route.ts:11 | Any `published_only` other than `"true"` gives the same listing as none at all |
| Courses.EmptyParametersAreIgnored | src/app/api/courses/route.ts:26-36 | An empty `category_id` gives the same listing as an absent one whatever the other parameters; so does an empty `search` |
| Courses.ZeroOrNullPriceIsAccepted | src/app/api/courses/route.ts:71-76 | A request with truthy title and description and a price of `0` or `null` passes validation and goes on to the session lookup |
| Courses.CreateCourse | src/app/api/courses/route.ts:59-144 | 400 with no call when title or description is falsy or price is absent; then 401, then 403; a throwing session or profile lookup answers 500 `Erreur serveur`; an insert happens iff every check passed; the row copies the request's fields, belongs to the caller and is unpublished; a store error answers 500 with its message; success echoes the stored course |
| Courses.CreatedCourseIsADraft | src/app/api/courses/route.ts:105-135 | Through a store that keeps what it is given, a created course carries the request's title, description and price, belongs to the caller, is unpublished, and is absent from every published-only listing |
| Categories.ByNameIsTotalPreorder | src/app/api/categories/route.ts:15 | Ordering categories by name compares every pair and chains |
| Categories.ListCategories | src/app/api/categories/route.ts:7-33 | The listing is a permutation of the table sorted by name ascending; a store error answers 500 with its message |
| Categories.CreateCategory | src/app/api/categories/route.ts:36-99 | 400 with no call for a falsy name; 401 `Non authentifié`; 403 `Accès non autorisé`; a throwing session or profile lookup answers 500 `Erreur serveur`; an insert of exactly `{name, description}` iff every check passed; a store error answers 500 with its message; success echoes the stored category |
| Categories.StudentCannotCreateCategory | src/app/api/categories/route.ts:59-71 | A caller whose profile says student gets 403 and nothing is written |
| Signup.SignUpUser | src/app/api/auth/signup/route.ts:6-80 | 400 with no provider call when a field is falsy; a provider error answers 400 with its own message; no user answers a fixed 400; the profile row has the provider's user id, the given name and the student role and is written only after a created identity; a profile failure answers 500 with nothing undone; success carries id, email and name |
| Signin.SignInUser | src/app/api/auth/signin/route.ts:6-72 | 400 with no provider call when a credential is falsy; every provider error answers 401 `Email ou mot de passe incorrect`; no user answers 400; a profile failure answers 500; success takes id and email from the provider and name and role from the profile; no provider or store message is ever answered; the only state-changing call is the provider sign-in, made first |
| Me.CurrentUserOf | src/app/api/auth/me/route.ts:6-52 | A session error or no session answers 401 with no profile lookup; a profile error answers 404 `Profil non trouvé`; success takes id and email from the session and name, role and creation time from the profile |
| Accounts.SignupThenSigninYieldsStudent | src/app/api/auth/signup/route.ts:46-71 | When the provider and the store return what signup created, signing in with the same body yields the same id, email and name with the student role |

## Left out

- The service client construction and environment reading (`src/lib/supabase.ts:1-12`): foreign library code.
- Real sessions, cookies, password checking and the SQL engine: every provider and store reply is an input of the model.
- Search: the case fold covers ASCII letters only; `%`, `_` and `*` inside a search term, which the `ilike` filter treats as wildcards, and `\`, which it treats as an escape, are taken literally; a term containing `,` or `)` that would change the `or(...)` filter string is not modelled.
- Name ordering is code-point order, not the database collation; ties in `created_at` are broken by insertion, where the store promises no particular order.
- Timestamps are integers ordered like the instants they denote.
- The joined `category` and `admin` objects of the course listing and of the created course.
- JSON numbers are reals: JSON has no NaN, so no falsy number other than `0` arises.
- The fixed success messages (`Cours créé avec succès` and the like): constant text with no decision in it.
- Exceptions inside the middleware: it has no `catch`, so the framework answers them.
- The signout route: one provider call with one error branch.
- The course publish toggle, course update/delete and lesson routes, including lesson `order_index` defaulting, and the `Lesson`, `Quiz` and `UserProgress` rows: not part of this model.
- The UI pages (`src/app/page.tsx` and the test pages): DOM, fetch and HTML strings.
- Concurrency between requests: each handler is modelled as one sequential run.

=== FILE: accounts.dfy ===
/** How signup and signin fit together through the profile store. */
module Accounts {
  import opened Base
  import opened Json
  import opened Schema
  import opened Store
  import Signup
  import Signin

  /** A new account signs in as a student: signup writes a profile with the
      student role, and signin reads the role from that profile. Assumed of
      the collaborators: the provider recognises the same credentials as the
      identity it created, and the store returns the profile row that was
      inserted. */
  lemma SignupThenSigninYieldsStudent(
    body: Call<Value>,
    signUp: (Value, Value, Value) -> Call<AuthReply>,
    insertProfile: ProfileRow -> Call<Option<string>>,
    signIn: (Value, Value) -> Call<AuthReply>,
    profileOf: ProfileLookup,
    row: ProfileRow,
    stored: Profile)
    requires Signup.SignUpUser(body, signUp, insertProfile).response.Success?
    requires InsertProfile(row) in Signup.SignUpUser(body, signUp, insertProfile).effects
    requires BodyUsable(body)
    requires signIn(Get(body.value, "email"), Get(body.value, "password"))
             == Returns(AuthReply(Some(AuthUser(row.id, Signup.SignUpUser(body, signUp, insertProfile).response.body.email)), None))
    requires profileOf(row.id) == Returns(Ok(stored))
    requires stored.role == row.role && Str(stored.full_name) == row.full_name
    ensures var up := Signup.SignUpUser(body, signUp, insertProfile).response.body;
            var inn := Signin.SignInUser(body, signIn, profileOf).response;
            && inn.Success?
            && inn.body.role == Student
            && inn.body.id == up.id
            && inn.body.email == up.email
            && Str(inn.body.full_name) == up.full_name
  {
  }
}

=== FILE: base.dfy ===
/** Option and Result, the two failure-carrying shapes the handlers read from
    their collaborators. */
module Base {

  /** A value that may be absent (a JavaScript `null`/`undefined` field). */
  datatype Option<+T> = None | Some(value: T)

  /** A store reply: the row(s) on success, the store's message on failure. */
  datatype Result<+T> = Ok(value: T) | Err(message: string)
}

=== FILE: categories.dfy ===
/** `GET /api/categories` (every category, by name) and `POST /api/categories`
    (validate, then session, then admin role, then insert). */
module Categories {
  import opened Base
  import opened Json
  import opened Schema
  import opened Store
  import opened Text
  import opened Sorting

  /** `order('name')`: ascending by name, in code-point order. */
  predicate ByName(a: Category, b: Category) {
    LexLe(a.name, b.name)
  }

  lemma ByNameIsTotalPreorder()
    ensures TotalPreorder(ByName)
  {
    forall a: Category, b: Category ensures ByName(a, b) || ByName(b, a) {
      LexLeTotal(a.name, b.name);
    }
    forall a: Category, b: Category, c: Category | ByName(a, b) && ByName(b, c) ensures ByName(a, c) {
      LexLeTransitive(a.name, b.name, c.name);
    }
  }

  /** The listing handler: all rows, ordered by name; a store error is
      answered with its own message. */
  function ListCategories(table: Call<Result<seq<Category>>>): (o: Outcome<seq<Category>>)
    ensures o.effects == [SelectCategories]
    ensures table.Throws? ==> o.response == Failure(500, ServerError)
    ensures table.Returns? && table.value.Err? ==> o.response == Failure(500, table.value.message)
    ensures table.Returns? && table.value.Ok? ==>
              && o.response.Success?
              && SortedBy(o.response.body, ByName)
              && multiset(o.response.body) == multiset(table.value.value)
  {
    match table
    case Throws => Crash([SelectCategories])
    case Returns(Err(m)) => Outcome(Failure(500, m), [SelectCategories])
    case Returns(Ok(rows)) =>
      ByNameIsTotalPreorder();
      Outcome(Success(SortBy(rows, ByName)), [SelectCategories])
  }

  const MissingName := "Le nom de la catégorie est requis"

  /** The creation handler: a truthy `name` (400 otherwise, before any call),
      then the admin gate (401, 403), then one insert of exactly the request's
      `name` and `description`, whose store error is answered verbatim (500). */
  function CreateCategory(
    body: Call<Value>,
    session: Call<SessionReply>,
    profileOf: ProfileLookup,
    insert: CategoryRow -> Call<Result<Category>>): (o: Outcome<Category>)
    ensures !BodyUsable(body) ==> o == Crash([])
    ensures BodyUsable(body) && !Truthy(Get(body.value, "name")) ==>
              o == Outcome(Failure(400, MissingName), [])
    ensures BodyUsable(body) && Truthy(Get(body.value, "name")) && session.Returns? && session.value.session.None? ==>
              o == Outcome(Failure(401, NotAuthenticated), [GetSession])
    ensures BodyUsable(body) && Truthy(Get(body.value, "name")) && HasSession(session)
            && profileOf(CallerId(session)).Returns? && !IsAdminProfile(profileOf(CallerId(session)).value) ==>
              o == Outcome(Failure(403, Forbidden), [GetSession, SelectProfile(CallerId(session))])
    ensures BodyUsable(body) && Truthy(Get(body.value, "name"))
            && (session.Throws? || (HasSession(session) && profileOf(CallerId(session)).Throws?)) ==>
              o.response == Failure(500, ServerError)
    ensures !NoWrites(o.effects) <==> BodyUsable(body) && Truthy(Get(body.value, "name")) && AdminCaller(session, profileOf)
    ensures BodyUsable(body) && Truthy(Get(body.value, "name")) && AdminCaller(session, profileOf) ==>
              var row := CategoryRow(Get(body.value, "name"), Get(body.value, "description"));
              && o.effects == [GetSession, SelectProfile(CallerId(session)), InsertCategory(row)]
              && (insert(row).Throws? ==> o.response == Failure(500, ServerError))
              && (insert(row).Returns? && insert(row).value.Err? ==> o.response == Failure(500, insert(row).value.message))
              && (insert(row).Returns? && insert(row).value.Ok? ==> o.response == Success(insert(row).value.value))
  {
    if !BodyUsable(body) then Crash([])
    else
      var b := body.value;
      if !Truthy(Get(b, "name")) then Outcome(Failure(400, MissingName), [])
      else
        var gate := AdminGate(session, profileOf);
        var effects := gate.effects;
        match gate.admission
        case Refuse(status, error) => Outcome(Failure(status, error), effects)
        case Admit(uid) =>
          var row := CategoryRow(Get(b, "name"), Get(b, "description"));
          var effects := effects + [InsertCategory(row)];
          assert Writes(effects[2]);
          match insert(row)
          case Throws => Crash(effects)
          case Returns(Err(m)) => Outcome(Failure(500, m), effects)
          case Returns(Ok(category)) => Outcome(Success(category), effects)
  }

  /** A caller whose profile says student is refused whatever it sends and
      whatever the store would do, and nothing is written. */
  lemma StudentCannotCreateCategory(
    body: Call<Value>,
    session: Call<SessionReply>,
    profileOf: ProfileLookup,
    insert: CategoryRow -> Call<Result<Category>>)
    requires BodyUsable(body) && Truthy(Get(body.value, "name"))
    requires HasSession(session)
    requires profileOf(CallerId(session)).Returns? && profileOf(CallerId(session)).value.Ok?
    requires profileOf(CallerId(session)).value.value.role == Student
    ensures CreateCategory(body, session, profileOf, insert).response == Failure(403, Forbidden)
    ensures NoWrites(CreateCategory(body, session, profileOf, insert).effects)
  {
  }
}

=== FILE: courses.dfy ===
/** `GET /api/courses` (filtered listing, newest first) and `POST /api/courses`
    (validate, then session, then admin role, then insert). */
module Courses {
  import opened Base
  import opened Json
  import opened Schema
  import opened Store
  import opened Text
  import opened Sorting

  /** The listing's query-string parameters, `null` when absent. */
  datatype ListParams = ListParams(
    category_id: Option<string>,
    published_only: Option<string>,
    search: Option<string>)

  /** A query-string parameter used as a JavaScript condition: present and non-empty. */
  predicate Given(p: Option<string>) {
    p.Some? && p.value != ""
  }

  /** The filters the handler adds to the store query. */
  function QueryOf(p: ListParams): CourseQuery {
    CourseQuery(
      if Given(p.category_id) then p.category_id else None,
      p.published_only == Some("true"),
      if Given(p.search) then p.search else None)
  }

  /** A course passes every active filter: category equality, published state,
      and the search term in the title or in the description, ignoring case. */
  predicate Qualifies(q: CourseQuery, c: Course) {
    && (q.category.Some? ==> c.category_id == q.category)
    && (q.publishedOnly ==> c.is_published)
    && (q.search.Some? ==>
          ContainsIgnoringCase(c.title, q.search.value)
          || ContainsIgnoringCase(c.description, q.search.value))
  }

  /** The rows that qualify, each as often as it occurs, in table order. */
  function Filter(q: CourseQuery, rows: seq<Course>): (r: seq<Course>)
    ensures forall c :: multiset(r)[c] == if Qualifies(q, c) then multiset(rows)[c] else 0
  {
    if |rows| == 0 then []
    else
      assert rows == [rows[0]] + rows[1..];
      var rest := Filter(q, rows[1..]);
      if Qualifies(q, rows[0]) then [rows[0]] + rest else rest
  }

  /** `order('created_at', { ascending: false })`. */
  predicate NewestFirst(a: Course, b: Course) {
    a.created_at >= b.created_at
  }

  lemma NewestFirstIsTotalPreorder()
    ensures TotalPreorder(NewestFirst)
  {
  }

  /** What the store answers for a query over the table `rows`. */
  function RunQuery(q: CourseQuery, rows: seq<Course>): (r: seq<Course>)
    ensures SortedBy(r, NewestFirst)
    ensures forall c :: multiset(r)[c] == if Qualifies(q, c) then multiset(rows)[c] else 0
  {
    NewestFirstIsTotalPreorder();
    SortBy(Filter(q, rows), NewestFirst)
  }

  /** The listing handler. A category filter applies only for a non-empty
      `category_id`, the published filter only for the exact string `"true"`,
      and the search only for a non-empty term; the active filters combine by
      conjunction, and the answer is every qualifying row, newest first. A store
      error is answered with its own message. */
  function ListCourses(p: ListParams, table: Call<Result<seq<Course>>>): (o: Outcome<seq<Course>>)
    ensures o.effects == [SelectCourses(QueryOf(p))]
    ensures table.Throws? ==> o.response == Failure(500, ServerError)
    ensures table.Returns? && table.value.Err? ==> o.response == Failure(500, table.value.message)
    ensures table.Returns? && table.value.Ok? ==>
              && o.response.Success?
              && SortedBy(o.response.body, NewestFirst)
              && (forall c :: c in o.response.body <==> c in table.value.value && ParamsAdmit(p, c))
              && (forall c :: ParamsAdmit(p, c) ==>
                    multiset(o.response.body)[c] == multiset(table.value.value)[c])
  {
    var q := QueryOf(p);
    match table
    case Throws => Crash([SelectCourses(q)])
    case Returns(Err(m)) => Outcome(Failure(500, m), [SelectCourses(q)])
    case Returns(Ok(rows)) =>
      var r := RunQuery(q, rows);
      ListedIffQualifies(p, rows, r);
      Outcome(Success(r), [SelectCourses(q)])
  }

  /** The query's filters, read back in terms of the request parameters. */
  predicate ParamsAdmit(p: ListParams, c: Course) {
    && (Given(p.category_id) ==> c.category_id == p.category_id)
    && (p.published_only == Some("true") ==> c.is_published)
    && (Given(p.search) ==>
          ContainsIgnoringCase(c.title, p.search.value)
          || ContainsIgnoringCase(c.description, p.search.value))
  }

  /** The store query's filters and the request parameters admit the same
      courses; so multiplicities kept for qualifying rows and zero for the
      others mean membership exactly for the table's rows the parameters admit. */
  lemma ListedIffQualifies(p: ListParams, rows: seq<Course>, r: seq<Course>)
    requires forall c :: multiset(r)[c] == if Qualifies(QueryOf(p), c) then multiset(rows)[c] else 0
    ensures forall c :: Qualifies(QueryOf(p), c) <==> ParamsAdmit(p, c)
    ensures forall c :: ParamsAdmit(p, c) ==> multiset(r)[c] == multiset(rows)[c]
    ensures forall c :: c in r <==> c in rows && ParamsAdmit(p, c)
  {
    forall c ensures c in r <==> c in rows && ParamsAdmit(p, c) {
      assert c in r <==> multiset(r)[c] > 0;
      assert c in rows <==> multiset(rows)[c] > 0;
      assert Qualifies(QueryOf(p), c) == ParamsAdmit(p, c);
    }
  }

  /** Any `published_only` other than `"true"` (absent, `"false"`, `"1"`, …)
      lists drafts and published courses alike. */
  lemma PublishedFilterNeedsExactTrue(p: ListParams, table: Call<Result<seq<Course>>>)
    requires p.published_only != Some("true")
    ensures ListCourses(p, table) == ListCourses(p.(published_only := None), table)
  {
  }

  /** An empty `category_id` or `search` is the same as none. */
  lemma EmptyParametersAreIgnored(p: ListParams, table: Call<Result<seq<Course>>>)
    ensures ListCourses(p.(category_id := Some("")), table) == ListCourses(p.(category_id := None), table)
    ensures ListCourses(p.(search := Some("")), table) == ListCourses(p.(search := None), table)
  {
  }

  const MissingCourseFields := "Titre, description et prix sont requis"

  /** Title and description must be truthy; price must merely be present, so
      `0` and `null` pass. */
  predicate CourseBodyComplete(b: Value)
    requires Destructurable(b)
  {
    Truthy(Get(b, "title")) && Truthy(Get(b, "description")) && !Get(b, "price").Undefined?
  }

  /** Price is checked for presence only: `0` and `null` both pass validation,
      so such a request goes on to the session lookup. */
  lemma ZeroOrNullPriceIsAccepted(
    title: Value, description: Value, price: Value,
    session: Call<SessionReply>, profileOf: ProfileLookup, insert: CourseRow -> Call<Result<Course>>)
    requires Truthy(title) && Truthy(description)
    requires price == Num(0.0) || price == Null
    ensures var body := Returns(Obj(map["title" := title, "description" := description, "price" := price]));
            var o := CreateCourse(body, session, profileOf, insert);
            && o.response != Failure(400, MissingCourseFields)
            && 1 <= |o.effects| && o.effects[0] == GetSession
  {
  }

  /** The creation handler: body validation (400), then the admin gate (401,
      403), then one insert whose store error is answered verbatim (500). */
  function CreateCourse(
    body: Call<Value>,
    session: Call<SessionReply>,
    profileOf: ProfileLookup,
    insert: CourseRow -> Call<Result<Course>>): (o: Outcome<Course>)
    // An unreadable body reaches the catch clause before any call.
    ensures !BodyUsable(body) ==> o == Crash([])
    // Validation precedes every call to the service.
    ensures BodyUsable(body) && !CourseBodyComplete(body.value) ==>
              o == Outcome(Failure(400, MissingCourseFields), [])
    ensures BodyUsable(body) && CourseBodyComplete(body.value) && session.Returns? && session.value.session.None? ==>
              o == Outcome(Failure(401, NotAuthenticated), [GetSession])
    ensures BodyUsable(body) && CourseBodyComplete(body.value) && HasSession(session)
            && profileOf(CallerId(session)).Returns? && !IsAdminProfile(profileOf(CallerId(session)).value) ==>
              o == Outcome(Failure(403, Forbidden), [GetSession, SelectProfile(CallerId(session))])
    // A throwing session or profile lookup reaches the catch clause.
    ensures BodyUsable(body) && CourseBodyComplete(body.value)
            && (session.Throws? || (HasSession(session) && profileOf(CallerId(session)).Throws?)) ==>
              o.response == Failure(500, ServerError)
    // Nothing is written unless every check passed.
    ensures !NoWrites(o.effects) <==> BodyUsable(body) && CourseBodyComplete(body.value) && AdminCaller(session, profileOf)
    // The inserted row: the request's fields as sent, owned by the caller, unpublished.
    ensures BodyUsable(body) && CourseBodyComplete(body.value) && AdminCaller(session, profileOf) ==>
              && |o.effects| == 3
              && o.effects[..2] == [GetSession, SelectProfile(CallerId(session))]
              && o.effects[2].InsertCourse?
              && var row := o.effects[2].course;
              && row.admin_id == CallerId(session)
              && !row.is_published
              && row.title == Get(body.value, "title")
              && row.description == Get(body.value, "description")
              && row.price == Get(body.value, "price")
              && row.duration == Get(body.value, "duration")
              && row.level == Get(body.value, "level")
              && row.image_url == Get(body.value, "image_url")
              && row.category_id == Get(body.value, "category_id")
              && (insert(row).Throws? ==> o.response == Failure(500, ServerError))
              && (insert(row).Returns? && insert(row).value.Err? ==> o.response == Failure(500, insert(row).value.message))
              && (insert(row).Returns? && insert(row).value.Ok? ==> o.response == Success(insert(row).value.value))
  {
    if !BodyUsable(body) then Crash([])
    else
      var b := body.value;
      if !CourseBodyComplete(b) then Outcome(Failure(400, MissingCourseFields), [])
      else
        var gate := AdminGate(session, profileOf);
        var effects := gate.effects;
        match gate.admission
        case Refuse(status, error) => Outcome(Failure(status, error), effects)
        case Admit(uid) =>
          var row := CourseRow(
            Get(b, "title"), Get(b, "description"), Get(b, "price"),
            Get(b, "duration"), Get(b, "level"), Get(b, "image_url"), Get(b, "category_id"),
            uid, false);
          var effects := effects + [InsertCourse(row)];
          assert Writes(effects[2]);
          match insert(row)
          case Throws => Crash(effects)
          case Returns(Err(m)) => Outcome(Failure(500, m), effects)
          case Returns(Ok(course)) => Outcome(Success(course), effects)
  }

  /** The store keeps what it was asked to insert. */
  predicate Materialises(row: CourseRow, c: Course) {
    && row.title == Str(c.title)
    && row.description == Str(c.description)
    && row.price == Num(c.price)
    && c.admin_id == Some(row.admin_id)
    && c.is_published == row.is_published
  }

  ghost predicate FaithfulInsert(insert: CourseRow -> Call<Result<Course>>) {
    forall row :: insert(row).Returns? && insert(row).value.Ok? ==> Materialises(row, insert(row).value.value)
  }

  /** Round trip through a faithful store: a created course carries the request's
      title, description and price, belongs to the caller, starts unpublished,
      and so stays out of every published-only listing. */
  lemma CreatedCourseIsADraft(
    body: Call<Value>,
    session: Call<SessionReply>,
    profileOf: ProfileLookup,
    insert: CourseRow -> Call<Result<Course>>,
    p: ListParams,
    rows: seq<Course>)
    requires FaithfulInsert(insert)
    requires CreateCourse(body, session, profileOf, insert).response.Success?
    requires p.published_only == Some("true")
    ensures var c := CreateCourse(body, session, profileOf, insert).response.body;
            && HasSession(session)
            && c.admin_id == Some(CallerId(session))
            && !c.is_published
            && Get(body.value, "title") == Str(c.title)
            && Get(body.value, "description") == Str(c.description)
            && Get(body.value, "price") == Num(c.price)
            && c !in ListCourses(p, Returns(Ok(rows + [c]))).response.body
  {
  }
}

=== FILE: json.dfy ===
/** The JSON values a request body can carry, and the two JavaScript rules the
    handlers apply to them: truthiness (`!x`) and object destructuring
    (`const { a, b } = body`). */
module Json {

  /** A parsed JSON value, plus `Undefined` for a property that is not there.
      Numbers are kept as reals; JSON cannot spell NaN or the infinities. */
  datatype Value =
    | Undefined
    | Null
    | Bool(b: bool)
    | Num(n: real)
    | Str(s: string)
    | Arr(items: seq<Value>)
    | Obj(fields: map<string, Value>)

  /** JavaScript truthiness: `undefined`, `null`, `false`, `0` and `""` are
      falsy, everything else (including `[]` and `{}`) is truthy. */
  predicate Truthy(v: Value) {
    match v
    case Undefined => false
    case Null => false
    case Bool(b) => b
    case Num(n) => n != 0.0
    case Str(s) => s != ""
    case Arr(_) => true
    case Obj(_) => true
  }

  /** Destructuring `const { ... } = v` throws a TypeError exactly when `v` is
      `null` or `undefined`; every other value can be destructured. */
  predicate Destructurable(v: Value) {
    !v.Undefined? && !v.Null?
  }

  /** The property `name` as destructuring reads it: an object's own field,
      and `undefined` for a missing field or a non-object value. */
  function Get(v: Value, name: string): Value
    requires Destructurable(v)
  {
    if v.Obj? && name in v.fields then v.fields[name] else Undefined
  }
}

=== FILE: me.dfy ===
/** `GET /api/auth/me`: the caller's identity and profile. */
module Me {
  import opened Base
  import opened Schema
  import opened Store

  const ProfileNotFound := "Profil non trouvé"

  /** The success body's `user`. */
  datatype CurrentUser = CurrentUser(id: string, email: string, full_name: string, role: Role, created_at: Timestamp)

  /** The handler. Unlike the admin gate, a session error counts as no session. */
  function CurrentUserOf(session: Call<SessionReply>, profileOf: ProfileLookup): (o: Outcome<CurrentUser>)
    ensures session.Throws? ==> o == Crash([GetSession])
    // No valid session: 401, and the profile is not looked up.
    ensures session.Returns? && (session.value.error.Some? || session.value.session.None?) ==>
              o == Outcome(Failure(401, NotAuthenticated), [GetSession])
    ensures session.Returns? && session.value.error.None? && session.value.session.Some? ==>
              var user := session.value.session.value.user;
              && o.effects == [GetSession, SelectProfile(user.id)]
              && (profileOf(user.id).Throws? ==> o.response == Failure(500, ServerError))
              && (profileOf(user.id).Returns? && profileOf(user.id).value.Err? ==>
                    o.response == Failure(404, ProfileNotFound))
              // Identity from the session; name, role and creation time from the profile.
              && (profileOf(user.id).Returns? && profileOf(user.id).value.Ok? ==>
                    var p := profileOf(user.id).value.value;
                    o.response == Success(CurrentUser(user.id, user.email, p.full_name, p.role, p.created_at)))
    ensures o.response.Success? <==>
              session.Returns? && session.value.error.None? && session.value.session.Some?
              && profileOf(session.value.session.value.user.id).Returns?
              && profileOf(session.value.session.value.user.id).value.Ok?
  {
    match session
    case Throws => Crash([GetSession])
    case Returns(reply) =>
      if reply.error.Some? || reply.session.None? then Outcome(Failure(401, NotAuthenticated), [GetSession])
      else
        var user := reply.session.value.user;
        var effects := [GetSession, SelectProfile(user.id)];
        match profileOf(user.id)
        case Throws => Crash(effects)
        case Returns(Err(_)) => Outcome(Failure(404, ProfileNotFound), effects)
        case Returns(Ok(p)) =>
          Outcome(Success(CurrentUser(user.id, user.email, p.full_name, p.role, p.created_at)), effects)
  }
}

=== FILE: middleware.dfy ===
/** The route guard that runs before page requests: a login redirect for
    protected areas without a session, a redirect to the site root for the
    admin area unless the caller's profile says admin, and otherwise the
    request goes on. */
module Middleware {
  import opened Base
  import opened Schema
  import opened Store
  import opened Text

  datatype Decision = Continue | RedirectLogin | RedirectRoot

  /** The middleware's decision and the calls it made to reach it. */
  datatype Verdict = Verdict(decision: Decision, effects: seq<Effect>)

  /** The admin area, by a raw prefix test: `/administrator` is inside it. */
  predicate AdminArea(path: string) {
    StartsWith(path, "/admin")
  }

  /** The areas that need only a session. `/courses` itself is outside: only
      paths below `/courses/` are. */
  predicate StudentArea(path: string) {
    StartsWith(path, "/student") || StartsWith(path, "/courses/") || StartsWith(path, "/dashboard")
  }

  /** The guard. The session is read for every request it sees; the profile
      lookup (`users.role` for the session's user) is made only for the admin
      area and only when there is a session; its reply is a row or an error,
      and an error leaves no role. */
  function Guard(path: string, session: Option<Session>, roleOf: string -> Result<Profile>): (r: Verdict)
    ensures r.decision == RedirectLogin <==> session.None? && (AdminArea(path) || StudentArea(path))
    ensures r.decision == RedirectRoot <==>
              session.Some? && AdminArea(path) && !IsAdminProfile(roleOf(session.value.user.id))
    ensures r.decision == Continue <==>
              (!AdminArea(path) && !StudentArea(path))
              || (session.Some? && (AdminArea(path) ==> IsAdminProfile(roleOf(session.value.user.id))))
    ensures AdminArea(path) && session.Some? ==> r.effects == [GetSession, SelectProfile(session.value.user.id)]
    ensures !(AdminArea(path) && session.Some?) ==> r.effects == [GetSession]
  {
    if AdminArea(path) && session.None? then Verdict(RedirectLogin, [GetSession])
    else if AdminArea(path) && !IsAdminProfile(roleOf(session.value.user.id)) then
      Verdict(RedirectRoot, [GetSession, SelectProfile(session.value.user.id)])
    else
      var effects := if AdminArea(path) then [GetSession, SelectProfile(session.value.user.id)] else [GetSession];
      if StudentArea(path) && session.None? then Verdict(RedirectLogin, effects)
      else Verdict(Continue, effects)
  }

  /** `config.matcher`: `/P/:path*` selects `/P` itself and every path below
      `/P/`, for the four areas. Paths it does not select never reach the guard. */
  predicate Matched(path: string) {
    exists area | area in ["/admin", "/student", "/courses", "/dashboard"] ::
      path == area || StartsWith(path, area + "/")
  }

  /** The middleware as the framework runs it: the guard on matched paths, and
      no interception at all elsewhere. */
  function Intercept(path: string, session: Option<Session>, roleOf: string -> Result<Profile>): (r: Verdict)
    ensures r.decision == RedirectLogin <==> Matched(path) && session.None? && (AdminArea(path) || StudentArea(path))
    ensures r.decision == RedirectRoot <==>
              Matched(path) && session.Some? && AdminArea(path) && !IsAdminProfile(roleOf(session.value.user.id))
    ensures r.effects == [] <==> !Matched(path)
  {
    if Matched(path) then Guard(path, session, roleOf) else Verdict(Continue, [])
  }

  /** Outside the admin area the role is never consulted: two profile stores
      that disagree on every role give the same decision and the same calls. */
  lemma RoleIgnoredOutsideAdmin(path: string, session: Option<Session>, f: string -> Result<Profile>, g: string -> Result<Profile>)
    requires !AdminArea(path)
    ensures Guard(path, session, f) == Guard(path, session, g)
    ensures Guard(path, session, f).effects == [GetSession]
  {
  }

  /** Every path the matcher selects is in a guarded area, except `/courses`
      itself, which the matcher selects and the guard lets through. */
  lemma MatchedPathsAreGuarded(path: string)
    requires Matched(path)
    ensures AdminArea(path) || StudentArea(path) || path == "/courses"
  {
  }

  /** The prefix test on its own treats `/administrator` as admin area, but the
      matcher never sends it to the guard. */
  lemma AdministratorIsNotIntercepted(roleOf: string -> Result<Profile>)
    ensures Guard("/administrator", None, roleOf).decision == RedirectLogin
    ensures Intercept("/administrator", None, roleOf) == Verdict(Continue, [])
  {
    assert StartsWith("/administrator", "/admin");
    var path := "/administrator";
    assert path[1] == 'a' && path[6] == 'i';
    assert !Matched(path) by {
      assert ("/admin" + "/")[6] == '/';
      assert ("/student" + "/")[1] == 's';
      assert ("/courses" + "/")[1] == 'c';
      assert ("/dashboard" + "/")[1] == 'd';
    }
  }

  /** `/courses` passes without a session, a course page below it does not. */
  lemma CourseListIsOpen(roleOf: string -> Result<Profile>)
    ensures Intercept("/courses", None, roleOf).decision == Continue
    ensures Intercept("/courses/42", None, roleOf).decision == RedirectLogin
  {
    assert Matched("/courses");
    var path := "/courses";
    assert path[1] == 'c';
    assert "/admin"[1] == 'a' && "/student"[1] == 's' && "/dashboard"[1] == 'd';
    assert !StartsWith(path, "/courses/");
    assert StartsWith("/courses/42", "/courses/");
    assert Matched("/courses/42") by {
      assert StartsWith("/courses/42", "/courses" + "/");
    }
  }
}

=== FILE: schema.dfy ===
/** The database rows the handlers read and return, after the interfaces of
    `src/lib/supabase.ts`, and the identity provider's user and session. */
module Schema {
  import opened Base

  /** The only authorization attribute of a profile. */
  datatype Role = Admin | Student

  /** Timestamps are ISO-8601 strings in the store; they are ordered like the
      instants they denote, which is all the model uses, so an instant is an
      integer here. */
  type Timestamp = int

  /** A row of the `users` table (the interface `User`). */
  datatype Profile = Profile(
    id: string,
    full_name: string,
    role: Role,
    created_at: Timestamp,
    updated_at: Timestamp)

  /** A row of the `categories` table. */
  datatype Category = Category(
    id: string,
    name: string,
    description: Option<string>,
    created_at: Timestamp)

  /** A row of the `courses` table (without the joined category and admin). */
  datatype Course = Course(
    id: string,
    title: string,
    description: string,
    price: real,
    duration: Option<string>,
    level: Option<string>,
    image_url: Option<string>,
    category_id: Option<string>,
    admin_id: Option<string>,
    is_published: bool,
    created_at: Timestamp,
    updated_at: Timestamp)

  /** The identity provider's user record. */
  datatype AuthUser = AuthUser(id: string, email: string)

  /** A provider session; it identifies the caller by its user. */
  datatype Session = Session(user: AuthUser)
}

=== FILE: signin.dfy ===
/** `POST /api/auth/signin`: check the credentials with the provider, then
    answer with the profile's name and role. */
module Signin {
  import opened Base
  import opened Json
  import opened Schema
  import opened Store

  const MissingCredentials := "Email et mot de passe sont requis"
  const BadCredentials := "Email ou mot de passe incorrect"
  const SigninFailed := "Erreur de connexion"
  const ProfileUnavailable := "Erreur lors de la récupération du profil"

  /** The success body's `user`. */
  datatype SignedIn = SignedIn(id: string, email: string, full_name: string, role: Role)

  predicate CredentialsGiven(b: Value)
    requires Destructurable(b)
  {
    Truthy(Get(b, "email")) && Truthy(Get(b, "password"))
  }

  /** The handler. `signIn` is the provider, `profileOf` the `users` lookup. */
  function SignInUser(
    body: Call<Value>,
    signIn: (Value, Value) -> Call<AuthReply>,
    profileOf: ProfileLookup): (o: Outcome<SignedIn>)
    ensures !BodyUsable(body) ==> o == Crash([])
    ensures BodyUsable(body) && !CredentialsGiven(body.value) ==>
              o == Outcome(Failure(400, MissingCredentials), [])
    ensures BodyUsable(body) && CredentialsGiven(body.value) ==>
              var email, password := Get(body.value, "email"), Get(body.value, "password");
              var reply := signIn(email, password);
              && 1 <= |o.effects| && o.effects[0] == SignIn(email, password)
              && (reply.Throws? ==> o == Crash([SignIn(email, password)]))
              // Every provider error reads as bad credentials.
              && (reply.Returns? && reply.value.error.Some? ==>
                    o == Outcome(Failure(401, BadCredentials), [SignIn(email, password)]))
              && (reply.Returns? && reply.value.error.None? && reply.value.user.None? ==>
                    o == Outcome(Failure(400, SigninFailed), [SignIn(email, password)]))
              && (reply.Returns? && reply.value.error.None? && reply.value.user.Some? ==>
                    var user := reply.value.user.value;
                    && o.effects == [SignIn(email, password), SelectProfile(user.id)]
                    && (profileOf(user.id).Throws? ==> o.response == Failure(500, ServerError))
                    && (profileOf(user.id).Returns? && profileOf(user.id).value.Err? ==>
                          o.response == Failure(500, ProfileUnavailable))
                    // Identity from the provider, name and role from the profile.
                    && (profileOf(user.id).Returns? && profileOf(user.id).value.Ok? ==>
                          var p := profileOf(user.id).value.value;
                          o.response == Success(SignedIn(user.id, user.email, p.full_name, p.role))))
    // No message from the provider or the store ever reaches the caller.
    ensures o.response.Failure? ==>
              o.response.error in {MissingCredentials, BadCredentials, SigninFailed, ProfileUnavailable, ServerError}
    // The provider sign-in, made first, is the only call that changes state.
    ensures forall i :: 0 <= i < |o.effects| && Writes(o.effects[i]) ==> i == 0 && o.effects[i].SignIn?
  {
    if !BodyUsable(body) then Crash([])
    else
      var b := body.value;
      if !CredentialsGiven(b) then Outcome(Failure(400, MissingCredentials), [])
      else
        var email, password := Get(b, "email"), Get(b, "password");
        var effects := [SignIn(email, password)];
        match signIn(email, password)
        case Throws => Crash(effects)
        case Returns(reply) =>
          if reply.error.Some? then Outcome(Failure(401, BadCredentials), effects)
          else if reply.user.None? then Outcome(Failure(400, SigninFailed), effects)
          else
            var user := reply.user.value;
            var effects := effects + [SelectProfile(user.id)];
            match profileOf(user.id)
            case Throws => Crash(effects)
            case Returns(Err(_)) => Outcome(Failure(500, ProfileUnavailable), effects)
            case Returns(Ok(p)) => Outcome(Success(SignedIn(user.id, user.email, p.full_name, p.role)), effects)
  }
}

=== FILE: signup.dfy ===
/** `POST /api/auth/signup`: create the identity with the provider, then the
    profile row with the default role. */
module Signup {
  import opened Base
  import opened Json
  import opened Schema
  import opened Store

  const MissingSignupFields := "Email, mot de passe et nom complet sont requis"
  const NoUserCreated := "Erreur lors de la création du compte"
  const ProfileNotCreated := "Erreur lors de la création du profil"

  /** The success body's `user`: there is no role in it. */
  datatype SignedUp = SignedUp(id: string, email: string, full_name: Value)

  predicate SignupBodyComplete(b: Value)
    requires Destructurable(b)
  {
    Truthy(Get(b, "email")) && Truthy(Get(b, "password")) && Truthy(Get(b, "full_name"))
  }

  /** The handler. `signUp` is the provider, `insertProfile` answers the
      store's error message, if any. */
  function SignUpUser(
    body: Call<Value>,
    signUp: (Value, Value, Value) -> Call<AuthReply>,
    insertProfile: ProfileRow -> Call<Option<string>>): (o: Outcome<SignedUp>)
    ensures !BodyUsable(body) ==> o == Crash([])
    // Missing fields are refused and the provider is never called.
    ensures BodyUsable(body) && !SignupBodyComplete(body.value) ==>
              o == Outcome(Failure(400, MissingSignupFields), [])
    ensures BodyUsable(body) && SignupBodyComplete(body.value) ==>
              var email, password, name := Get(body.value, "email"), Get(body.value, "password"), Get(body.value, "full_name");
              var reply := signUp(email, password, name);
              && 1 <= |o.effects| && o.effects[0] == SignUp(email, password, name)
              && (reply.Throws? ==> o == Crash([SignUp(email, password, name)]))
              // The provider's own message is passed through.
              && (reply.Returns? && reply.value.error.Some? ==>
                    o == Outcome(Failure(400, reply.value.error.value), [SignUp(email, password, name)]))
              && (reply.Returns? && reply.value.error.None? && reply.value.user.None? ==>
                    o == Outcome(Failure(400, NoUserCreated), [SignUp(email, password, name)]))
              && (reply.Returns? && reply.value.error.None? && reply.value.user.Some? ==>
                    var user := reply.value.user.value;
                    // Profile id is the provider's user id; the role is student.
                    var row := ProfileRow(user.id, name, Student);
                    // The identity is not rolled back: the insert is the last call.
                    && o.effects == [SignUp(email, password, name), InsertProfile(row)]
                    && (insertProfile(row).Throws? ==> o.response == Failure(500, ServerError))
                    && (insertProfile(row).Returns? && insertProfile(row).value.Some? ==>
                          o.response == Failure(500, ProfileNotCreated))
                    && (insertProfile(row).Returns? && insertProfile(row).value.None? ==>
                          o.response == Success(SignedUp(user.id, user.email, name))))
    // A profile row is written only for a user the provider has just created.
    ensures forall i :: 0 <= i < |o.effects| && o.effects[i].InsertProfile? ==>
              i == 1 && o.effects[i].profile.role == Student
  {
    if !BodyUsable(body) then Crash([])
    else
      var b := body.value;
      if !SignupBodyComplete(b) then Outcome(Failure(400, MissingSignupFields), [])
      else
        var email, password, name := Get(b, "email"), Get(b, "password"), Get(b, "full_name");
        var effects := [SignUp(email, password, name)];
        match signUp(email, password, name)
        case Throws => Crash(effects)
        case Returns(reply) =>
          if reply.error.Some? then Outcome(Failure(400, reply.error.value), effects)
          else if reply.user.None? then Outcome(Failure(400, NoUserCreated), effects)
          else
            var user := reply.user.value;
            var row := ProfileRow(user.id, name, Student);
            var effects := effects + [InsertProfile(row)];
            match insertProfile(row)
            case Throws => Crash(effects)
            case Returns(Some(_)) => Outcome(Failure(500, ProfileNotCreated), effects)
            case Returns(None) => Outcome(Success(SignedUp(user.id, user.email, name)), effects)
  }
}

=== FILE: sorting.dfy ===
/** Ordering of query results. The store sorts; the model states what a
    sorted answer is and builds one by insertion, so that a handler's result
    can be said to be a sorted permutation of the rows that qualified. */
module Sorting {

  /** `le` compares every pair and chains: a total preorder (ties allowed). */
  ghost predicate TotalPreorder<T(!new)>(le: (T, T) -> bool) {
    && (forall a, b :: le(a, b) || le(b, a))
    && (forall a, b, c :: le(a, b) && le(b, c) ==> le(a, c))
  }

  /** Every element is `le` every element after it. */
  ghost predicate SortedBy<T>(s: seq<T>, le: (T, T) -> bool) {
    forall i, j :: 0 <= i < j < |s| ==> le(s[i], s[j])
  }

  /** Places `x` before the first element it is `le`. */
  function Insert<T(!new)>(x: T, s: seq<T>, le: (T, T) -> bool): (r: seq<T>)
    requires TotalPreorder(le)
    requires SortedBy(s, le)
    ensures SortedBy(r, le)
    ensures multiset(r) == multiset(s) + multiset{x}
  {
    if |s| == 0 then [x]
    else if le(x, s[0]) then [x] + s
    else
      var rest := Insert(x, s[1..], le);
      assert s == [s[0]] + s[1..];
      forall k | 0 <= k < |rest|
        ensures le(s[0], rest[k])
      {
        assert rest[k] in multiset(rest);
        if rest[k] != x {
          assert rest[k] in multiset(s[1..]);
          var j :| 0 <= j < |s[1..]| && s[1..][j] == rest[k];
          assert s[j + 1] == rest[k];
        }
      }
      [s[0]] + rest
  }

  /** Insertion sort: a sorted rearrangement of `s`. */
  function SortBy<T(!new)>(s: seq<T>, le: (T, T) -> bool): (r: seq<T>)
    requires TotalPreorder(le)
    ensures SortedBy(r, le)
    ensures multiset(r) == multiset(s)
  {
    if |s| == 0 then []
    else
      assert s == [s[0]] + s[1..];
      Insert(s[0], SortBy(s[1..], le), le)
  }
}

=== FILE: store.dfy ===
/** What a route handler exchanges with the hosted auth/database service, and
    the shape of what it answers.

    Every call to the service is an oracle input: the model does not compute
    what the service replies, it only decides what to do with each reply. A
    handler's result records the calls it made, in order, so that "nothing is
    looked up before validation" and "nothing is inserted unless every check
    passed" are statements about that record. */
module Store {
  import opened Base
  import opened Json
  import opened Schema

  /** One awaited call: it returns a value, or its promise rejects and control
      goes to the handler's `catch`. */
  datatype Call<+T> = Returns(value: T) | Throws

  /** `auth.getSession()`: `data.session` and `error`. */
  datatype SessionReply = SessionReply(session: Option<Session>, error: Option<string>)

  /** `auth.signUp` / `auth.signInWithPassword`: `data.user` and `error`'s message. */
  datatype AuthReply = AuthReply(user: Option<AuthUser>, error: Option<string>)

  /** `from('users').select(..).eq('id', id).single()`, as a function of `id`. */
  type ProfileLookup = string -> Call<Result<Profile>>

  /** The object a course creation asks the store to insert. Request fields are
      copied as the request carried them, whatever their JSON type. */
  datatype CourseRow = CourseRow(
    title: Value,
    description: Value,
    price: Value,
    duration: Value,
    level: Value,
    image_url: Value,
    category_id: Value,
    admin_id: string,
    is_published: bool)

  /** The object a category creation asks the store to insert. */
  datatype CategoryRow = CategoryRow(name: Value, description: Value)

  /** The profile row a signup asks the store to insert. */
  datatype ProfileRow = ProfileRow(id: string, full_name: Value, role: Role)

  /** The filters a course listing applies: a category to match, whether only
      published courses are wanted, and a search term. */
  datatype CourseQuery = CourseQuery(category: Option<string>, publishedOnly: bool, search: Option<string>)

  /** One call to the service, in the order the handler makes it. */
  datatype Effect =
    | GetSession
    | SelectProfile(id: string)
    | SelectCourses(query: CourseQuery)
    | SelectCategories
    | InsertCourse(course: CourseRow)
    | InsertCategory(category: CategoryRow)
    | InsertProfile(profile: ProfileRow)
    | SignUp(email: Value, password: Value, full_name: Value)
    | SignIn(email: Value, password: Value)

  /** Calls that change state held by the service: a row inserted, an
      identity created, or a provider session opened (which sets cookies). */
  predicate Writes(e: Effect) {
    e.InsertCourse? || e.InsertCategory? || e.InsertProfile? || e.SignUp? || e.SignIn?
  }

  predicate NoWrites(effects: seq<Effect>) {
    forall i :: 0 <= i < |effects| ==> !Writes(effects[i])
  }

  /** A JSON response: the success body, or an HTTP status with `{ error }`. */
  datatype Response<+T> = Success(body: T) | Failure(status: int, error: string)

  /** What a handler answers, and the calls it made to get there. */
  datatype Outcome<+T> = Outcome(response: Response<T>, effects: seq<Effect>)

  const NotAuthenticated := "Non authentifié"
  const Forbidden := "Accès non autorisé"
  const ServerError := "Erreur serveur"

  /** The handlers' `catch` clause: every exception becomes this response. */
  function Crash<T>(effects: seq<Effect>): Outcome<T> {
    Outcome(Failure(500, ServerError), effects)
  }

  /** The request body as destructuring sees it: a body that does not parse, or
      that parses to `null`, makes the handler throw. */
  predicate BodyUsable(body: Call<Value>) {
    body.Returns? && Destructurable(body.value)
  }

  /** `userProfile?.role !== 'admin'` negated: a profile was found and its role
      is admin. A failed lookup leaves `userProfile` null. */
  predicate IsAdminProfile(p: Result<Profile>) {
    p.Ok? && p.value.role == Admin
  }

  predicate HasSession(session: Call<SessionReply>) {
    session.Returns? && session.value.session.Some?
  }

  function CallerId(session: Call<SessionReply>): string
    requires HasSession(session)
  {
    session.value.session.value.user.id
  }

  /** The caller has a session and the profile looked up for it says admin. */
  predicate AdminCaller(session: Call<SessionReply>, profileOf: ProfileLookup) {
    HasSession(session) && profileOf(CallerId(session)).Returns?
    && IsAdminProfile(profileOf(CallerId(session)).value)
  }

  /** The verdict of the admin check every mutating handler repeats. */
  datatype Admission = Admit(uid: string) | Refuse(status: int, error: string)

  /** The admin check's verdict and the calls it made. */
  datatype Gate = Gate(admission: Admission, effects: seq<Effect>)

  /** Session lookup, then profile-role lookup: 401 without a session, 403
      unless the caller's profile says admin (a missing profile included), and
      otherwise the caller's user id. The session's own `error` is not read. */
  function AdminGate(session: Call<SessionReply>, profileOf: ProfileLookup): (g: Gate)
    ensures g.admission.Admit? <==> AdminCaller(session, profileOf)
    ensures g.admission.Admit? ==> g.admission.uid == CallerId(session)
    ensures g.admission == Refuse(401, NotAuthenticated) <==> session.Returns? && session.value.session.None?
    ensures g.admission == Refuse(403, Forbidden) <==>
              HasSession(session) && profileOf(CallerId(session)).Returns?
              && !IsAdminProfile(profileOf(CallerId(session)).value)
    ensures g.admission == Refuse(500, ServerError) <==>
              session.Throws? || (HasSession(session) && profileOf(CallerId(session)).Throws?)
    ensures !HasSession(session) ==> g.effects == [GetSession]
    ensures HasSession(session) ==> g.effects == [GetSession, SelectProfile(CallerId(session))]
  {
    match session
    case Throws => Gate(Refuse(500, ServerError), [GetSession])
    case Returns(reply) =>
      match reply.session
      case None => Gate(Refuse(401, NotAuthenticated), [GetSession])
      case Some(s) =>
        var uid := s.user.id;
        var effects := [GetSession, SelectProfile(uid)];
        match profileOf(uid)
        case Throws => Gate(Refuse(500, ServerError), effects)
        case Returns(p) =>
          if IsAdminProfile(p) then Gate(Admit(uid), effects)
          else Gate(Refuse(403, Forbidden), effects)
  }
}

=== FILE: text.dfy ===
/** The string operations the handlers rely on: JavaScript's `startsWith`,
    the case-insensitive substring test behind `ilike '%term%'`, and the
    order the store sorts names by. */
module Text {

  /** `s.startsWith(prefix)`. */
  predicate StartsWith(s: string, prefix: string) {
    prefix <= s
  }

  /** Case folding, ASCII letters only. */
  function LowerChar(c: char): char {
    if 'A' <= c <= 'Z' then (c as int - 'A' as int + 'a' as int) as char else c
  }

  function Lower(s: string): string {
    seq(|s|, i requires 0 <= i < |s| => LowerChar(s[i]))
  }

  /** Folding an already folded string changes nothing. */
  lemma LowerIsIdempotent(s: string)
    ensures Lower(Lower(s)) == Lower(s)
  {
  }

  /** `pattern` occurs in `text` starting at position `i`. */
  ghost predicate OccursAt(text: string, pattern: string, i: nat) {
    i + |pattern| <= |text| && text[i..i + |pattern|] == pattern
  }

  /** Substring test, scanning `text` left to right. */
  function Contains(text: string, pattern: string): (b: bool)
    decreases |text|
  {
    if pattern <= text then true
    else if |text| == 0 then false
    else Contains(text[1..], pattern)
  }

  /** `Contains` finds exactly the patterns that occur somewhere in the text. */
  lemma {:induction false} ContainsIffOccurs(text: string, pattern: string)
    ensures Contains(text, pattern) <==> exists i: nat :: OccursAt(text, pattern, i)
    decreases |text|
  {
    if pattern <= text {
      assert text[0..|pattern|] == pattern;
      assert OccursAt(text, pattern, 0);
    } else if |text| == 0 {
      forall i: nat ensures !OccursAt(text, pattern, i) {
        assert |pattern| > 0;
      }
    } else {
      ContainsIffOccurs(text[1..], pattern);
      if Contains(text[1..], pattern) {
        var i: nat :| OccursAt(text[1..], pattern, i);
        assert text[i + 1..i + 1 + |pattern|] == text[1..][i..i + |pattern|];
        assert OccursAt(text, pattern, i + 1);
      } else {
        forall i: nat ensures !OccursAt(text, pattern, i) {
          if i == 0 {
            if |pattern| <= |text| {
              assert text[0..|pattern|] != pattern;
            }
          } else if i + |pattern| <= |text| {
            assert text[1..][i - 1..i - 1 + |pattern|] == text[i..i + |pattern|];
            assert !OccursAt(text[1..], pattern, i - 1);
          }
        }
      }
    }
  }

  /** The `ilike '%term%'` test: `term` occurs in `text` once both are folded. */
  predicate ContainsIgnoringCase(text: string, term: string) {
    Contains(Lower(text), Lower(term))
  }

  /** The search is blind to the case of the term: a term and its folded form
      find the same texts. */
  lemma SearchIgnoresTermCase(text: string, term: string)
    ensures ContainsIgnoringCase(text, Lower(term)) == ContainsIgnoringCase(text, term)
  {
    LowerIsIdempotent(term);
  }

  /** Lexicographic order on code points: a prefix sorts first. */
  predicate LexLe(a: string, b: string) {
    if |a| == 0 then true
    else if |b| == 0 then false
    else if a[0] != b[0] then a[0] < b[0]
    else LexLe(a[1..], b[1..])
  }

  lemma {:induction false} LexLeTotal(a: string, b: string)
    ensures LexLe(a, b) || LexLe(b, a)
  {
    if |a| != 0 && |b| != 0 && a[0] == b[0] {
      LexLeTotal(a[1..], b[1..]);
    }
  }

  lemma {:induction false} LexLeAntisymmetric(a: string, b: string)
    requires LexLe(a, b) && LexLe(b, a)
    ensures a == b
  {
    if |a| != 0 && |b| != 0 {
      LexLeAntisymmetric(a[1..], b[1..]);
      assert a == [a[0]] + a[1..];
      assert b == [b[0]] + b[1..];
    }
  }

  lemma {:induction false} LexLeTransitive(a: string, b: string, c: string)
    requires LexLe(a, b) && LexLe(b, c)
    ensures LexLe(a, c)
  {
    if |a| != 0 && |b| != 0 && |c| != 0 && a[0] == b[0] && b[0] == c[0] {
      LexLeTransitive(a[1..], b[1..], c[1..]);
    }
  }
}
